=== FILE: README.md ===
# gopayamgostar core, modelled in Dafny

gopayamgostar is a Go client for the Payamgostar CRM HTTP API. This project
models its pure core and proves properties of the model:

- **the two defensive JSON codecs** of `models.go`. `StringOrArray` accepts
  either one JSON string or an array of strings and writes a one-element list
  back as a bare string. `EnforcedString` accepts a string that may arrive
  without its quotes, and it repairs such text before decoding it.
- **error classification**: `ParseAPIErrType` (`invalid_grant` or unknown),
  `APIError`, and `checkForError`. `checkForError` is the single point where a
  transport error, a missing response or an error status becomes an
  `APIError`.
- **the client's URL handling**: `makeURL`, `NewClient` (it trims the base
  path, fills in the default endpoint table, then runs the options) and
  `getFullEndpointURL`.
- **request construction** in `AdminAuthenticate` / `UserAuthenticate`,
  `FindPersonByName` and `DeletePurchase`: URL, bearer token, headers and
  body. Each call's outcome is computed from the response and transport error
  it is given.

Files:

- `wrappers.dfy`: `Option` and `Result`.
- `text.dfy`: the Go string functions the core uses. These are `strings.Join`,
  `strings.Contains`, `strings.TrimRight` and `bytes.ReplaceAll`. Each is tied
  to an independent characterisation or to its inverse. It also defines
  `Split`, a one-character split that the source never calls. It serves as
  the reference inverse of `Join`, which pins down what `makeURL` builds.
- `json.dfy`: the part of `encoding/json` that the codecs use. It parses
  string literals (every escape, including `\uXXXX` and surrogate pairs),
  `null`, and flat arrays of those. It marshals a `string` or a `[]string` the
  way `json.Marshal` does, with HTML escaping.
- `models.dfy`: the codecs, `APIErrType`, `ParseAPIErrType` and `APIError`.
- `client.dfy`: `makeURL`, the client and its endpoint table,
  `getFullEndpointURL`, `checkForError`, and the requests and outcomes of the
  modelled endpoint methods.

Go strings and byte slices are both modelled as `string`. Every byte the
codecs inspect or rewrite (`[`, `"`, `\`) is ASCII, and an ASCII byte never
occurs inside a multi-byte UTF-8 sequence. So rewriting characters is the
same as rewriting bytes. Go's `error` values appear as their text, with
`None` for nil. An `UnmarshalJSON` call is modelled as a function that returns
the receiver's value after the call together with the error it returned.

Two facts about `StringOrArray` decoding follow from the code and are easy
to miss:

- The code tests the first byte itself, and only when the text is longer than
  one byte. Whitespace in front of an array is not skipped.
  `Models.LeadingSpaceDefeatsArray` shows the consequence: an encoded array
  with a space in front is rejected. `Models.LoneBracketFailsEitherWay` shows
  the length test makes no visible difference.
- Any text that is not an array is decoded into a Go `string`. So `null`
  becomes `[""]` (`Models.NullDecodesToEmptyString`). A number or a boolean
  is an error; this model reports it as `Malformed`.

## Model

| member | source | states |
|---|---|---|
| Models.UnmarshalStringOrArray | models.go:37-53 | A failed decode returns the decoder's own error (the array decode's for array text, the string decode's otherwise) and leaves the receiver as it was. A successful decode of array text means the document is a JSON array, and the list is exactly what the array decode produced: each element's text, or "" for a `null` element. A successful decode of other text yields one element: the document's string, or "" for `null`. |
| Models.StringOrArrayReadsArray | models.go:38-44 | Text starting with `[` that holds an array of strings decodes to exactly those strings, in order, with no error. |
| Models.StringOrArrayReadsScalar | models.go:47-52 | Other text holding one JSON string decodes to the one-element list of that string. |
| Models.NullDecodesToEmptyString | models.go:47-51 | The document `null` decodes to the one-element list holding "". |
| Models.LoneBracketFailsEitherWay | models.go:38 | The one text the length test diverts, a lone `[`, fails as malformed and keeps the receiver. It would also fail on the array reading. |
| Models.LeadingSpaceDefeatsArray | models.go:38-51 | An encoded array preceded by a space goes down the single-string reading and fails with a type error. The receiver is kept. |
| Models.MarshalStringOrArray | models.go:56-61 | The output starts with a quote exactly when the list has one element. Otherwise it starts with `[`. |
| Models.StringOrArrayRoundTrip | models.go:37-61 | For every list, decoding its encoding gives the list back with no error, whatever the receiver held. |
| Models.SingletonArrayCollapses | models.go:56-61 | The wire array `["x"]` decodes to `[x]`. That list re-encodes as the bare string `"x"`, not as the array it came from. |
| Models.EscapeQuotes | models.go:70 | The first repair pass never shortens the text, and `Models.EscapeQuotesEscapes` shows every quote in its output is escaped. |
| Models.EscapeQuotesEscapes | models.go:70 | After the first repair pass every quote has a backslash right before it, and the text is no shorter. |
| Models.EscapeQuotesJoinsPieces | models.go:70 | The first repair pass cuts the text at its quotes and joins the pieces with `\"`. |
| Models.CollapseEscapes | models.go:71 | The second repair pass never lengthens the text, and it leaves text without quotes unchanged. |
| Models.Repair | models.go:68-76 | The repaired text is two characters longer than the two passes' output, starts and ends with a quote, and holds that output between them. |
| Models.EscapedQuotesCollapseFree | models.go:70-71 | On text without backslashes or control characters, the second repair pass changes nothing after the first. |
| Models.RepairEscapesQuotes | models.go:68-76 | Inside the repaired payload, every quote has a backslash right before it. |
| Models.RepairWithoutQuotes | models.go:68-76 | A payload without quotes is only wrapped in a pair of quotes. |
| Models.UnmarshalEnforced | models.go:67-82 | Text starting with a quote is decoded as given; other text is decoded after the repair. On failure the receiver becomes "" and the decoder's own error, for the text actually decoded, is returned. |
| Models.MarshalEnforced | models.go:85-87 | The output is a quoted JSON string literal. |
| Models.EnforcedRoundTrip | models.go:67-87 | For every string, decoding its encoding gives the string back with no error. |
| Models.UnquotedAgreesWithQuoted | models.go:68-76 | Text without quotes decodes exactly as the same text wrapped in quotes. |
| Models.RepairIsLossless | models.go:68-81 | Unquoted text without backslashes or control characters decodes to exactly itself. This holds even with embedded quotes. |
| Models.TrailingBackslashDefeatsRepair | models.go:68-81 | Plain unquoted text ending in a backslash is repaired into an unterminated literal. Decoding fails as malformed and the receiver becomes "". |
| Models.ParseAPIErrType | models.go:105-115 | The type is invalid-grant exactly when there is an error whose text contains `invalid_grant`. In every other case, nil included, it is unknown. |
| Models.APIErrType.Name | models.go:91-101 | The unknown category is written `unknown` and the invalid-grant category `oauth: invalid grant`. Each constant names exactly one category. |
| Models.APIError.Error | models.go:118-127 | An error's text is its message. `Client.TransportErrorMentionsContext` and `Client.StatusMessageShape` state what that message holds. |
| Models.InvalidGrantIffOccurs | models.go:105-115 | An error is classed invalid-grant exactly when `invalid_grant` occurs at some index of its text. |
| Json.DecodeString | models.go:48 | Decoding into a string succeeds exactly when the document is a string literal or `null`. It yields the literal's text, or "" for `null`. A flat array of strings and `null`s is a type error. Any other text, nested arrays, numbers, booleans and objects included, is malformed. |
| Json.DecodeStrings | models.go:40 | Decoding into a list succeeds only on `null` or an array. `null` gives the empty list. An array gives, element by element, the element's text, or "" for a `null` element. A lone string literal is a type error. Any other text, nested arrays, numbers, booleans and objects included, is malformed. |
| Json.MarshalString | models.go:58 | The output is a quoted literal at least two characters longer than the string. `Json.ParseMarshalString` shows that it parses back. |
| Json.MarshalStrings | models.go:60 | The output is bracketed. `Json.ParseMarshalStrings` shows that it parses back to the elements. |
| Json.ParseMarshalString | models.go:58 | A marshalled Go string parses back to that string. This holds for every string, with escapes and HTML escaping. |
| Json.ParseMarshalStrings | models.go:60 | A marshalled `[]string` parses back to the array of its elements. It decodes to the same list. |
| Text.Contains | models.go:110 | The scanning definition of `strings.Contains`. `Text.ContainsIffOccurs` ties it to the index-based one. |
| Text.Join | client.go:37 | `strings.Join`: a single part comes back unchanged. `Text.SplitJoin` shows that splitting undoes it for parts free of the separator. |
| Text.ContainsIffOccurs | models.go:110 | The scanning `strings.Contains` holds exactly when the pattern occurs at some index. |
| Text.Split | client.go:36-38 | The reference inverse of `makeURL`'s join; the source itself never splits. It yields at least one piece, no piece contains the separator, and joining the pieces with the separator gives the text back. |
| Text.TrimRight | client.go:105 | The result is a prefix of the input that does not end in the cut character. Everything cut off is that character. |
| Text.TrimRightAbsorbs | client.go:105 | Any number of extra trailing cut characters trims to the same result. |
| Text.ReplaceAll | models.go:70-71 | Text in which the pattern does not occur comes back unchanged. A replacement no longer than the pattern never lengthens the text, and one no shorter never shortens it. |
| Text.ReplaceAllFirst | models.go:70-71 | The leftmost occurrence is replaced: the text before it is kept, it becomes the replacement, and the scan resumes after it, so replaced occurrences never overlap. |
| Text.ReplaceCharIsJoinSplit | models.go:70 | With a one-character pattern, replacing equals splitting on the character and joining the pieces with the replacement. |
| Client.MakeURL | client.go:36-38 | One segment comes back unchanged. |
| Client.MakeURLSplits | client.go:36-38 | Segments without `/` are recovered by splitting their URL on `/`. |
| Client.MakeURLConcat | client.go:36-38 | The URL of two non-empty segment lists is the two URLs joined by one `/`. |
| Client.DefaultLoginFormSegments | client.go:109-111 | The default login endpoint splits on `/` into `api`, `v2`, `auth`, `login`. The get- and create-form endpoints split into `api`, `v2`, `crmobject`, `form` and the action. |
| Client.DefaultFormPersonSegments | client.go:112-114 | The update- and find-form endpoints and the get-person endpoint split on `/` into `api`, `v2`, `crmobject`, the object kind and the action. |
| Client.DefaultPersonPurchaseSegments | client.go:115-117 | The find-person endpoint splits on `/` into `api`, `v2`, `crmobject`, `person`, `find`. The purchase endpoints split into `api`, `v2`, `crmobject`, `invoice`, `purchase` and the action. |
| Client.DefaultConfig | client.go:109-117 | The default endpoint table, one `makeURL` call per endpoint. The three segment lemmas state its contents. |
| Client.ApplyOptions | client.go:119-121 | Options run first to last. Options that each keep the base path, or the table, keep it through the whole run. |
| Client.NewClient | client.go:103-124 | Unless an option rewrites it, the base path is the input with its trailing `/`s removed, and it does not end in `/`. The base path field is unexported, so options from outside the package cannot set it by name, but they can still replace the whole client; the trimming holds for options that keep the base path. Unless an option rewrites it, the table is the default one. |
| Client.DefaultClient | client.go:103-124 | Without options, the client is exactly the trimmed base path with the default table. |
| Client.OptionsRunLast | client.go:119-121 | Options run after the defaults and in order. An added last option sees the client the others produced. |
| Client.TrailingSlashesIgnored | client.go:105 | Extra trailing slashes on the base path give the same client, whatever the options. |
| Client.FullEndpointURL | client.go:172-175 | The URL is the base path, `/`, the authentication endpoint, and then `/` with the extra segments when there are any. |
| Client.StatusMessage | client.go:154-160 | The message starts with the status line. It is longer than the status line exactly when a non-empty detail came back. |
| Client.CheckForError | client.go:137-170 | A transport error wins with code 0 and message `context: cause`. Then a missing response gives "empty response", then an error status gives its code and status line. There is no error exactly when there is no transport error and a response with a non-error status came back. |
| Client.TransportErrorMentionsContext | client.go:138-144 | A transport error's text contains both the call's context message and the cause. |
| Client.StatusMessageShape | client.go:153-167 | An error status's message is the status line. It is followed by `: detail` only when a non-empty detail body came back. |
| Client.InvalidGrantOnlyFromTransport | client.go:137-170 | A reported error is classed invalid-grant exactly when a transport error mentioning `invalid_grant` caused it. Error statuses are always unknown. |
| Client.NonZeroCodeIsStatus | client.go:137-170 | A non-zero code only ever comes from an error status, and it is that status's code. |
| Client.BaseRequest | client.go:41-48 | A base request carries no token and no headers. |
| Client.WithBearerAuth | client.go:96-101 | It adds the token and a JSON content type. Every other header, the URL and the body are kept. |
| Client.WithBearerAuthNoCache | client.go:88-94 | It adds the token, a JSON content type and `no-cache`. Every other header, the URL and the body are kept. |
| Client.AuthenticateRequest | client.go:186-194 | The login request goes to the full endpoint URL with no extra segments. It carries no token and no headers, and its body is the credentials, the device identifier and platform type 1. |
| Client.AuthenticateResult | client.go:196-200 | The call succeeds with the token exactly when there is no transport error and a non-error response. Otherwise it returns `checkForError`'s error with the role's context message. |
| Client.DefaultLoginURL | client.go:109 | A default client posts its login to the trimmed base path followed by `/` and `api/v2/auth/login`. |
| Client.FindPersonByNameRequest | client.go:314-336 | The request goes to the find-person endpoint with the token. Its only headers are the JSON content type and `Cache-Control: no-cache`. It holds exactly two conditions, first name then last name, each with zero operators, for page 1 of size 10. |
| Client.FindPersonByNameResult | client.go:338-348 | A classified error comes first. Then a decode failure gives the context message, `: `, and the decode error's text. The call succeeds, with the decoded value, exactly when both steps succeed. |
| Client.DefaultFindPersonURL | client.go:334-336 | For a default client, the find-person URL splits into the base path's segments followed by `api/v2/crmobject/person/find`. |
| Client.DeletePurchaseRequest | client.go:297-304 | The request goes to the delete-purchase endpoint with the token and exactly one header, the JSON content type. Its body is the purchase identifier with option 1. |
| Client.DeletePurchaseResult | client.go:295-306 | It returns no error exactly when there is no transport error and a non-error response. A transport error gives code 0 and the message `could not delete purchase: ` followed by the cause. A missing response gives "empty response". An error status gives its own code and status message, classed unknown. |
| Client.DefaultDeletePurchaseURL | client.go:302-304 | For a default client, the delete-purchase URL splits into the base path's segments followed by `api/v2/crmobject/invoice/purchase/delete`. |
| Client.BaseThenPath | client.go:304 | The segments of `base/path` are those of the base followed by those of the path. |

## Left out

- HTTP transport: resty, retries, timeouts, `RestyClient` and `SetRestyClient` are not modelled. A call's response and transport error are parameters.
- OpenTracing header injection (`injectTracingHeaders`) is left out. It only adds headers when a span is in the context, so the base request's headers are modelled as empty.
- `uuid.NewString()` is nondeterministic. The device identifier is a parameter of `AuthenticateRequest`.
- `HTTPErrorResponse` is not part of this model. Its rendered text is a parameter (`Response.detail`), and its `NotEmpty` test is modelled as "present and not empty".
- JSON response bodies (`JWT`, `FindResponse`, `PersonInfo` and the other DTO structs) are left out. Their decoding is a parameter: the token, or a `Result` carrying the decode error's text.
- `GetQueryParams` and `getID` are outside the modelled core.
- `GetPersonInfoById`, `GetFormInfoById`, `CreatePurchase`, `FindForm` and `UpdateForm` are left out. They repeat the request/`checkForError` pattern that the modelled endpoint methods already cover.
- `shared/enums/find_key.go` and the value-to-reference helpers (`StringP`, `PString` and the like) are outside the modelled core.
- `Models.UnmarshalStringOrArray`: does not model Go's nil slice versus an empty slice. A nil `StringOrArray` marshals as `null` in Go, while the model has no nil list.
- `Models.StringOrArrayRoundTrip`: holds for every list the model can express. Two Go values fall outside it. A nil `StringOrArray` marshals as `null`, which decodes to `[""]`. A string holding invalid UTF-8 is marshalled with U+FFFD in place of the bad bytes, so it does not come back. Dafny strings hold only Unicode scalar values and cannot express either case.
- `Models.EnforcedRoundTrip`: holds for every string the model can express. A Go string holding invalid UTF-8 is marshalled with U+FFFD in place of the bad bytes, so it does not come back. Dafny strings cannot express such a string.
- `Models.UnmarshalEnforced`: requires non-empty text, because the Go method indexes `data[0]` and would panic on empty input. Go's decoder never passes it empty text.
- `Json.ParseMarshalString`: holds for strings of Unicode scalar values. A Go string holding invalid UTF-8 is marshalled with U+FFFD in place of the bad bytes, so it does not parse back to itself; Dafny strings cannot express it.
- `Json.DecodeString`: numbers, booleans, objects and arrays holding anything but strings and `null` are not parsed, so they come out `Malformed`. Go reports them as a type error (`UnmarshalTypeError`). Both are errors, but the kind differs.
- `Json.DecodeStrings`: a nested array, a number, a boolean or an object, at the top level or as an element, comes out `Malformed`. Go reports it as a type error. The type-error branch for an array element therefore never fires in the model.
- `Models.UnmarshalStringOrArray`: returns the decoder's own error, so it inherits the previous two lines. For numbers, booleans, objects and nested arrays it returns `Malformed` where Go returns a type error.
- `Json.ParseMarshalString`: only JSON strings, `null` and flat arrays of those are parsed. Numbers, booleans, objects and nested arrays are rejected as `Malformed`. Go rejects them with a type error instead; both are errors.
- `Json.ParseMarshalString`: the marshaller uses the `\b` and `\f` short escapes of current Go releases. Older releases write `\u0008` and `\u000c`, which decode to the same characters.
- `Client.CheckForError`: `errors.Wrap` keeps the cause chain. The model keeps only the wrapped error's text, which is all that `APIError` stores.

=== FILE: client.dfy ===
/**
 * The pure parts of client.go: URL construction, the client's base path and
 * endpoint table, the single error choke point `checkForError`, and the
 * requests the authenticate, find-person and delete-purchase calls build.
 * The HTTP exchange itself is not modelled: a call's response and transport
 * error are parameters.
 */
module Client {
  import opened Wrappers
  import opened Text
  import opened Models

  /** `urlSeparator`. */
  const Separator: char := '/'

  /** Segments that can be recovered from their join: none holds a separator. */
  predicate PlainSegments(path: seq<string>) {
    forall i :: 0 <= i < |path| ==> Separator !in path[i]
  }

  /** `makeURL`: the segments in order, joined by `/`; one segment comes back unchanged. */
  function MakeURL(path: seq<string>): (r: string)
    ensures |path| == 1 ==> r == path[0]
  {
    Join(path, [Separator])
  }

  /** Segments without a `/` are recovered by splitting their URL on `/`. */
  lemma MakeURLSplits(path: seq<string>)
    requires |path| > 0 && PlainSegments(path)
    ensures Split(MakeURL(path), Separator) == path
  {
    SplitJoin(path, Separator);
  }

  /** Joining two non-empty segment lists puts one `/` between their URLs. */
  lemma MakeURLConcat(a: seq<string>, b: seq<string>)
    requires |a| > 0 && |b| > 0
    ensures MakeURL(a + b) == MakeURL(a) + "/" + MakeURL(b)
  {
    JoinConcat(a, b, [Separator]);
  }

  // ---------------------------------------------------------------------
  // The client and its endpoint table.
  // ---------------------------------------------------------------------

  /** `GoPayamgostar.Config`: the path of every endpoint, relative to the base path. */
  datatype Config = Config(
    authEndpoint: string,
    getFormEndpoint: string,
    createFormEndpoint: string,
    findFormEndpoint: string,
    updateFormEndpoint: string,
    getPersonEndpoint: string,
    findPersonEndpoint: string,
    createPurchaseEndpoint: string,
    deletePurchaseEndpoint: string)

  /** `GoPayamgostar` without its HTTP transport: a base path and an endpoint table. */
  datatype GoPayamgostar = GoPayamgostar(basePath: string, config: Config)

  /** The endpoint table `NewClient` fills in before any option runs, one `makeURL` call per endpoint. */
  function DefaultConfig(): Config {
    Config(
      MakeURL(["api", "v2", "auth", "login"]),
      MakeURL(["api", "v2", "crmobject", "form", "get"]),
      MakeURL(["api", "v2", "crmobject", "form", "create"]),
      MakeURL(["api", "v2", "crmobject", "form", "find"]),
      MakeURL(["api", "v2", "crmobject", "form", "update"]),
      MakeURL(["api", "v2", "crmobject", "person", "get"]),
      MakeURL(["api", "v2", "crmobject", "person", "find"]),
      MakeURL(["api", "v2", "crmobject", "invoice", "purchase", "create"]),
      MakeURL(["api", "v2", "crmobject", "invoice", "purchase", "delete"]))
  }

  /** The default login endpoint and the first form endpoints split on `/` into their segments. */
  lemma DefaultLoginFormSegments()
    ensures Split(DefaultConfig().authEndpoint, Separator) == ["api", "v2", "auth", "login"]
    ensures Split(DefaultConfig().getFormEndpoint, Separator) == ["api", "v2", "crmobject", "form", "get"]
    ensures Split(DefaultConfig().createFormEndpoint, Separator) == ["api", "v2", "crmobject", "form", "create"]
  {
    MakeURLSplits(["api", "v2", "auth", "login"]);
    MakeURLSplits(["api", "v2", "crmobject", "form", "get"]);
    MakeURLSplits(["api", "v2", "crmobject", "form", "create"]);
  }

  /** The remaining form endpoints and the first person endpoint split on `/` into their segments. */
  lemma DefaultFormPersonSegments()
    ensures Split(DefaultConfig().findFormEndpoint, Separator) == ["api", "v2", "crmobject", "form", "find"]
    ensures Split(DefaultConfig().updateFormEndpoint, Separator) == ["api", "v2", "crmobject", "form", "update"]
    ensures Split(DefaultConfig().getPersonEndpoint, Separator) == ["api", "v2", "crmobject", "person", "get"]
  {
    MakeURLSplits(["api", "v2", "crmobject", "form", "find"]);
    MakeURLSplits(["api", "v2", "crmobject", "form", "update"]);
    MakeURLSplits(["api", "v2", "crmobject", "person", "get"]);
  }

  /** The remaining person endpoint and the purchase endpoints split on `/` into their segments. */
  lemma DefaultPersonPurchaseSegments()
    ensures Split(DefaultConfig().findPersonEndpoint, Separator) == ["api", "v2", "crmobject", "person", "find"]
    ensures Split(DefaultConfig().createPurchaseEndpoint, Separator) == ["api", "v2", "crmobject", "invoice", "purchase", "create"]
    ensures Split(DefaultConfig().deletePurchaseEndpoint, Separator) == ["api", "v2", "crmobject", "invoice", "purchase", "delete"]
  {
    MakeURLSplits(["api", "v2", "crmobject", "person", "find"]);
    MakeURLSplits(["api", "v2", "crmobject", "invoice", "purchase", "create"]);
    MakeURLSplits(["api", "v2", "crmobject", "invoice", "purchase", "delete"]);
  }

  /**
   * Every option leaves the base path alone. Options written outside the
   * package cannot set the unexported field by name, but they can replace
   * the whole client, so this is a condition, not a given.
   */
  ghost predicate KeepsBasePath(options: seq<GoPayamgostar -> GoPayamgostar>) {
    forall i, x :: 0 <= i < |options| ==> options[i](x).basePath == x.basePath
  }

  /** Every option leaves the endpoint table alone. */
  ghost predicate KeepsConfig(options: seq<GoPayamgostar -> GoPayamgostar>) {
    forall i, x :: 0 <= i < |options| ==> options[i](x).config == x.config
  }

  /**
   * Applies `NewClient`'s functional options to `c`, first to last. Options
   * that each keep the base path, or the table, keep it all the way through.
   */
  function ApplyOptions(c: GoPayamgostar, options: seq<GoPayamgostar -> GoPayamgostar>): (r: GoPayamgostar)
    ensures |options| == 0 ==> r == c
    ensures KeepsBasePath(options) ==> r.basePath == c.basePath
    ensures KeepsConfig(options) ==> r.config == c.config
    decreases |options|
  {
    if |options| == 0 then c else ApplyOptions(options[0](c), options[1..])
  }

  /**
   * `NewClient`: the base path without its trailing slashes and the default
   * endpoint table, then each option in turn. Unless an option rewrites it,
   * the base path is the input without its trailing `/`s, and unless an
   * option rewrites it, the table is the default one.
   */
  function NewClient(basePath: string, options: seq<GoPayamgostar -> GoPayamgostar>): (c: GoPayamgostar)
    ensures KeepsConfig(options) ==> c.config == DefaultConfig()
    ensures KeepsBasePath(options) ==> IsPrefix(c.basePath, basePath)
    ensures KeepsBasePath(options) ==> |c.basePath| == 0 || c.basePath[|c.basePath| - 1] != Separator
    ensures KeepsBasePath(options) ==> forall i :: |c.basePath| <= i < |basePath| ==> basePath[i] == Separator
  {
    ApplyOptions(GoPayamgostar(TrimRight(basePath, Separator), DefaultConfig()), options)
  }

  lemma {:induction false} ApplyOptionsLast(c: GoPayamgostar, options: seq<GoPayamgostar -> GoPayamgostar>, o: GoPayamgostar -> GoPayamgostar)
    ensures ApplyOptions(c, options + [o]) == o(ApplyOptions(c, options))
    decreases |options|
  {
    if |options| == 0 {
      assert options + [o] == [o];
    } else {
      assert (options + [o])[1..] == options[1..] + [o];
      ApplyOptionsLast(options[0](c), options[1..], o);
    }
  }

  /** Options run after the defaults, in order, so a later option overrides what came before. */
  lemma OptionsRunLast(basePath: string, options: seq<GoPayamgostar -> GoPayamgostar>, o: GoPayamgostar -> GoPayamgostar)
    ensures NewClient(basePath, options + [o]) == o(NewClient(basePath, options))
  {
    ApplyOptionsLast(GoPayamgostar(TrimRight(basePath, Separator), DefaultConfig()), options, o);
  }

  /** Any number of trailing slashes on the base path gives the same client, whatever the options. */
  lemma TrailingSlashesIgnored(basePath: string, n: nat, options: seq<GoPayamgostar -> GoPayamgostar>)
    ensures NewClient(basePath + seq(n, _ => Separator), options) == NewClient(basePath, options)
  {
    TrimRightAbsorbs(basePath, Separator, n);
  }

  /**
   * `getFullEndpointURL`: the base path, then the authentication endpoint,
   * then the given segments, joined by `/`.
   */
  function FullEndpointURL(c: GoPayamgostar, path: seq<string>): (r: string)
    ensures |path| == 0 ==> r == c.basePath + "/" + c.config.authEndpoint
    ensures |path| > 0 ==> r == c.basePath + "/" + c.config.authEndpoint + "/" + MakeURL(path)
  {
    PrefixedURL(c.basePath, c.config.authEndpoint, path);
    MakeURL([c.basePath, c.config.authEndpoint] + path)
  }

  /** Two leading segments followed by a possibly empty list. */
  lemma PrefixedURL(a: string, b: string, path: seq<string>)
    ensures |path| == 0 ==> MakeURL([a, b] + path) == a + "/" + b
    ensures |path| > 0 ==> MakeURL([a, b] + path) == a + "/" + b + "/" + MakeURL(path)
  {
    MakeURLConcat([a], [b]);
    assert [a] + [b] == [a, b];
    if |path| > 0 {
      MakeURLConcat([a, b], path);
    } else {
      assert [a, b] + path == [a, b];
    }
  }

  // ---------------------------------------------------------------------
  // The error choke point.
  // ---------------------------------------------------------------------

  /**
   * What the model keeps of an HTTP response: whether its status is an
   * error, the status code and line, and the rendered error-detail body
   * (`None` when there is none).
   */
  datatype Response = Response(isError: bool, statusCode: int, status: string, detail: Option<string>)

  /**
   * The message `checkForError` builds for an error status: the status line,
   * extended only when a non-empty detail came back.
   */
  function StatusMessage(resp: Response): (r: string)
    ensures IsPrefix(resp.status, r)
    ensures |r| > |resp.status| <==> resp.detail.Some? && resp.detail.value != ""
  {
    if resp.detail.Some? && resp.detail.value != "" then resp.status + ": " + resp.detail.value
    else resp.status
  }

  /**
   * `checkForError`, `err` being the text of the transport error (`None` for
   * nil): a transport error wins whatever the response; then a missing
   * response; then an error status; otherwise no error.
   */
  function CheckForError(resp: Option<Response>, err: Option<string>, errMessage: string): (r: Option<APIError>)
    ensures err.Some? ==> r == Some(APIError(0, errMessage + ": " + err.value, ParseAPIErrType(err)))
    ensures err.None? && resp.None? ==> r == Some(APIError(0, "empty response", Unknown))
    ensures err.None? && resp.Some? && resp.value.isError ==>
      r.Some? && r.value.code == resp.value.statusCode && r.value.errType == Unknown
      && IsPrefix(resp.value.status, r.value.message)
    ensures r.None? <==> err.None? && resp.Some? && !resp.value.isError
  {
    if err.Some? then
      Some(APIError(0, errMessage + ": " + err.value, ParseAPIErrType(err)))
    else if resp.None? then
      Some(APIError(0, "empty response", ParseAPIErrType(err)))
    else if resp.value.isError then
      Some(APIError(resp.value.statusCode, StatusMessage(resp.value), ParseAPIErrType(err)))
    else
      None
  }

  /** A transport error's text names both the call's context message and the cause. */
  lemma TransportErrorMentionsContext(resp: Option<Response>, err: string, errMessage: string)
    ensures CheckForError(resp, Some(err), errMessage).Some?
    ensures CheckForError(resp, Some(err), errMessage).value.code == 0
    ensures Contains(CheckForError(resp, Some(err), errMessage).value.Error(), errMessage)
    ensures Contains(CheckForError(resp, Some(err), errMessage).value.Error(), err)
  {
    ContainsPiece("", errMessage, ": " + err);
    assert "" + errMessage + (": " + err) == errMessage + ": " + err;
    ContainsPiece(errMessage + ": ", err, "");
    assert errMessage + ": " + err + "" == errMessage + ": " + err;
  }

  /** An error-status message is the status line, followed by the detail when there is one. */
  lemma StatusMessageShape(resp: Response, errMessage: string)
    requires resp.isError
    ensures CheckForError(Some(resp), None, errMessage).Some?
    ensures resp.detail.Some? && resp.detail.value != "" ==>
      CheckForError(Some(resp), None, errMessage).value.Error() == resp.status + ": " + resp.detail.value
    ensures resp.detail.None? || resp.detail.value == "" ==>
      CheckForError(Some(resp), None, errMessage).value.Error() == resp.status
  {
  }

  /** Only a transport error whose text mentions `invalid_grant` is ever classed as an invalid grant. */
  lemma InvalidGrantOnlyFromTransport(resp: Option<Response>, err: Option<string>, errMessage: string)
    requires CheckForError(resp, err, errMessage).Some?
    ensures CheckForError(resp, err, errMessage).value.errType == InvalidGrant
        <==> err.Some? && Contains(err.value, "invalid_grant")
  {
  }

  /** A non-zero code is always an error status's own code. */
  lemma NonZeroCodeIsStatus(resp: Option<Response>, err: Option<string>, errMessage: string)
    requires CheckForError(resp, err, errMessage).Some?
    requires CheckForError(resp, err, errMessage).value.code != 0
    ensures err.None? && resp.Some? && resp.value.isError
    ensures CheckForError(resp, err, errMessage).value.code == resp.value.statusCode
  {
  }

  // ---------------------------------------------------------------------
  // Requests built by the endpoint methods.
  // ---------------------------------------------------------------------

  /** `Query`: one filter condition of a find request. */
  datatype Query = Query(
    logicalOperator: int,
    operator: int,
    leafNegate: bool,
    field: string,
    fieldOperator: int,
    value: string,
    leafLogicalOperator: int)

  /** The request bodies the modelled calls send. */
  datatype Body =
    | AuthRequest(username: string, password: string, deviceId: string, platformType: int)
    | DeleteRequest(id: string, option: int)
    | FindRequest(typeKey: string, queries: seq<Query>, pageNumber: int, pageSize: int)

  /** A POST request: target URL, bearer token if any, headers and body. */
  datatype Request = Request(url: string, authToken: Option<string>, headers: map<string, string>, body: Body)

  /** `GetRequest`: no token and no headers (tracing headers are not modelled). */
  function BaseRequest(url: string, body: Body): (r: Request)
    ensures r.authToken.None? && r.headers == map[]
  {
    Request(url, None, map[], body)
  }

  /** `GetRequestWithBearerAuth`: the token and a JSON content type; every other header is kept. */
  function WithBearerAuth(r: Request, token: string): (r': Request)
    ensures r'.authToken == Some(token)
    ensures "Content-Type" in r'.headers && r'.headers["Content-Type"] == "application/json"
    ensures r'.headers.Keys == r.headers.Keys + {"Content-Type"}
    ensures forall k :: k in r.headers && k != "Content-Type" ==> r'.headers[k] == r.headers[k]
    ensures r'.url == r.url && r'.body == r.body
  {
    r.(authToken := Some(token), headers := r.headers["Content-Type" := "application/json"])
  }

  /** `GetRequestWithBearerAuthNoCache`: as `WithBearerAuth`, and caching disabled. */
  function WithBearerAuthNoCache(r: Request, token: string): (r': Request)
    ensures r'.authToken == Some(token)
    ensures "Content-Type" in r'.headers && r'.headers["Content-Type"] == "application/json"
    ensures "Cache-Control" in r'.headers && r'.headers["Cache-Control"] == "no-cache"
    ensures r'.headers.Keys == r.headers.Keys + {"Content-Type", "Cache-Control"}
    ensures forall k :: k in r.headers && k != "Content-Type" && k != "Cache-Control" ==> r'.headers[k] == r.headers[k]
    ensures r'.url == r.url && r'.body == r.body
  {
    var a := WithBearerAuth(r, token);
    a.(headers := a.headers["Cache-Control" := "no-cache"])
  }

  /** The two ways to log in; they differ only in the context message of their errors. */
  datatype Role = Admin | User

  function AuthErrMessage(role: Role): string {
    match role
    case Admin => "could not get token"
    case User => "could not get token(customer)"
  }

  /**
   * The request `AdminAuthenticate` and `UserAuthenticate` send: anonymous,
   * platform type 1 and the caller's credentials with a fresh device
   * identifier (a parameter here), posted to the authentication endpoint,
   * which is the full endpoint URL with no further segments.
   */
  function AuthenticateRequest(c: GoPayamgostar, username: string, password: string, deviceId: string): (r: Request)
    ensures r.url == FullEndpointURL(c, [])
    ensures r.authToken.None? && r.headers == map[]
    ensures r.body == AuthRequest(username, password, deviceId, 1)
  {
    BaseRequest(c.basePath + "/" + c.config.authEndpoint, AuthRequest(username, password, deviceId, 1))
  }

  /**
   * The outcome of an authenticate call given the transport's response and
   * error and the token the transport decoded: the classified error if
   * there is one, otherwise the token.
   */
  function AuthenticateResult<T>(role: Role, resp: Option<Response>, err: Option<string>, token: T): (r: Result<T, APIError>)
    ensures r.Ok? <==> err.None? && resp.Some? && !resp.value.isError
    ensures r.Ok? ==> r.value == token
    ensures r.Err? ==> Some(r.error) == CheckForError(resp, err, AuthErrMessage(role))
  {
    match CheckForError(resp, err, AuthErrMessage(role))
    case Some(e) => Err(e)
    case None => Ok(token)
  }

  /** A default client's login URL is its trimmed base path followed by `/api/v2/auth/login`. */
  lemma DefaultLoginURL(basePath: string, username: string, password: string, deviceId: string)
    ensures AuthenticateRequest(NewClient(basePath, []), username, password, deviceId).url
         == TrimRight(basePath, Separator) + "/" + MakeURL(["api", "v2", "auth", "login"])
  {
    DefaultClient(basePath);
  }

  /** Without options, `NewClient` keeps exactly the trimmed base path. */
  lemma DefaultClient(basePath: string)
    ensures NewClient(basePath, []) == GoPayamgostar(TrimRight(basePath, Separator), DefaultConfig())
  {
  }

  const FindPersonErrMessage: string := "could find person"
  const DeletePurchaseErrMessage: string := "could not delete purchase"

  /** A condition that a field equals a value, every other setting left at zero. */
  function FieldEquals(field: string, value: string): Query {
    Query(0, 0, false, field, 0, value, 0)
  }

  /**
   * The request `FindPersonByName` sends: with the token and caching
   * disabled, to the find-person endpoint, exactly two conditions, first
   * name then last name, first page of ten.
   */
  function FindPersonByNameRequest(c: GoPayamgostar, accessToken: string, typeKey: string, firstName: string, lastName: string): (r: Request)
    ensures r.url == c.basePath + "/" + c.config.findPersonEndpoint
    ensures r.authToken == Some(accessToken)
    ensures "Cache-Control" in r.headers && r.headers["Cache-Control"] == "no-cache"
    ensures r.body.FindRequest? && r.body.typeKey == typeKey
    ensures r.body.pageNumber == 1 && r.body.pageSize == 10
    ensures "Content-Type" in r.headers && r.headers["Content-Type"] == "application/json"
    ensures r.headers == map["Content-Type" := "application/json", "Cache-Control" := "no-cache"]
    ensures r.body.queries == [FieldEquals("FirstName", firstName), FieldEquals("LastName", lastName)]
  {
    var body := FindRequest(typeKey, [FieldEquals("FirstName", firstName), FieldEquals("LastName", lastName)], 1, 10);
    WithBearerAuthNoCache(BaseRequest(c.basePath + "/" + c.config.findPersonEndpoint, body), accessToken)
  }

  /** Why a call that got past `checkForError` can still fail. */
  datatype CallError = Api(apiError: APIError) | Wrapped(message: string)

  /**
   * The outcome of `FindPersonByName`, `decoded` being the result of
   * decoding the response body (its error text on failure): a classified
   * error first, then a decode error wrapped with the context message,
   * otherwise the decoded result.
   */
  function FindPersonByNameResult<T>(resp: Option<Response>, err: Option<string>, decoded: Result<T, string>): (r: Result<T, CallError>)
    ensures CheckForError(resp, err, FindPersonErrMessage).Some? ==>
      r == Err(Api(CheckForError(resp, err, FindPersonErrMessage).value))
    ensures CheckForError(resp, err, FindPersonErrMessage).None? && decoded.Err? ==>
      r == Err(Wrapped(FindPersonErrMessage + ": " + decoded.error))
    ensures r.Ok? <==> CheckForError(resp, err, FindPersonErrMessage).None? && decoded.Ok?
    ensures r.Ok? ==> r.value == decoded.value
  {
    match CheckForError(resp, err, FindPersonErrMessage)
    case Some(e) => Err(Api(e))
    case None =>
      match decoded
      case Err(why) => Err(Wrapped(FindPersonErrMessage + ": " + why))
      case Ok(v) => Ok(v)
  }

  /**
   * The request `DeletePurchase` sends: with the token, to the
   * delete-purchase endpoint, the purchase's identifier with option 1.
   */
  function DeletePurchaseRequest(c: GoPayamgostar, accessToken: string, purchaseID: string): (r: Request)
    ensures r.url == c.basePath + "/" + c.config.deletePurchaseEndpoint
    ensures r.authToken == Some(accessToken)
    ensures r.headers == map["Content-Type" := "application/json"]
    ensures r.body == DeleteRequest(purchaseID, 1)
  {
    WithBearerAuth(BaseRequest(c.basePath + "/" + c.config.deletePurchaseEndpoint, DeleteRequest(purchaseID, 1)), accessToken)
  }

  /**
   * `DeletePurchase` returns exactly what `checkForError` makes of the
   * exchange, with "could not delete purchase" as the context message.
   */
  function DeletePurchaseResult(resp: Option<Response>, err: Option<string>): (r: Option<APIError>)
    ensures r.None? <==> err.None? && resp.Some? && !resp.value.isError
    ensures err.Some? ==> r == Some(APIError(0, DeletePurchaseErrMessage + ": " + err.value, ParseAPIErrType(err)))
    ensures err.None? && resp.None? ==> r == Some(APIError(0, "empty response", Unknown))
    ensures err.None? && resp.Some? && resp.value.isError ==>
      r == Some(APIError(resp.value.statusCode, StatusMessage(resp.value), Unknown))
  {
    CheckForError(resp, err, DeletePurchaseErrMessage)
  }

  /** A default client looks people up at its trimmed base path followed by `/api/v2/crmobject/person/find`. */
  lemma DefaultFindPersonURL(basePath: string, accessToken: string, typeKey: string, firstName: string, lastName: string)
    ensures Split(FindPersonByNameRequest(NewClient(basePath, []), accessToken, typeKey, firstName, lastName).url, Separator)
         == Split(TrimRight(basePath, Separator), Separator) + ["api", "v2", "crmobject", "person", "find"]
  {
    DefaultClient(basePath);
    DefaultPersonPurchaseSegments();
    BaseThenPath(TrimRight(basePath, Separator), DefaultConfig().findPersonEndpoint);
  }

  /** A default client deletes purchases at its trimmed base path followed by `/api/v2/crmobject/invoice/purchase/delete`. */
  lemma DefaultDeletePurchaseURL(basePath: string, accessToken: string, purchaseID: string)
    ensures Split(DeletePurchaseRequest(NewClient(basePath, []), accessToken, purchaseID).url, Separator)
         == Split(TrimRight(basePath, Separator), Separator) + ["api", "v2", "crmobject", "invoice", "purchase", "delete"]
  {
    DefaultClient(basePath);
    DefaultPersonPurchaseSegments();
    BaseThenPath(TrimRight(basePath, Separator), DefaultConfig().deletePurchaseEndpoint);
  }

  /** The segments of `base/path` are those of `base` followed by those of `path`. */
  lemma BaseThenPath(base: string, path: string)
    ensures Split(base + "/" + path, Separator) == Split(base, Separator) + Split(path, Separator)
  {
    var a := Split(base, Separator);
    var b := Split(path, Separator);
    MakeURLConcat(a, b);
    assert forall i :: 0 <= i < |a + b| ==> Separator !in (a + b)[i];
    SplitJoin(a + b, Separator);
  }
}

=== FILE: json.dfy ===
/**
 * The slice of `encoding/json` that the two defensive codecs touch: decoding
 * a document into a Go `string` or `[]string`, and marshalling a `string` or
 * `[]string`. Only the JSON values such targets can accept are parsed
 * (string literals, `null`, and flat arrays of those); any other document is
 * rejected, just as Go rejects it for these targets.
 */
module Json {
  import opened Wrappers

  /** The JSON values a `string` or `[]string` target can meet. */
  datatype Value = JNull | JString(s: string) | JArray(elems: seq<Value>)

  /**
   * Why a decode failed: the text is not a JSON document of the modelled
   * kinds, or it is one of the wrong kind for the target.
   */
  datatype DecodeError = Malformed | WrongKind

  /** JSON insignificant whitespace. */
  predicate IsWs(c: char) {
    c == ' ' || c == '\t' || c == '\n' || c == '\r'
  }

  /** Drops leading whitespace; what is left is empty or starts with a non-space. */
  function SkipWs(s: string): (r: string)
    ensures |r| <= |s|
    ensures |r| == 0 || !IsWs(r[0])
    decreases |s|
  {
    if |s| > 0 && IsWs(s[0]) then SkipWs(s[1..]) else s
  }

  /** What `SkipWs` drops is all whitespace, and what it keeps is the rest of the text. */
  lemma {:induction false} SkipWsSuffix(s: string)
    ensures SkipWs(s) == s[|s| - |SkipWs(s)|..]
    ensures forall i :: 0 <= i < |s| - |SkipWs(s)| ==> IsWs(s[i])
    decreases |s|
  {
    if |s| > 0 && IsWs(s[0]) {
      SkipWsSuffix(s[1..]);
      assert s[1..][|s| - 1 - |SkipWs(s)|..] == s[|s| - |SkipWs(s)|..];
    }
  }

  predicate IsHex(c: char) {
    ('0' <= c <= '9') || ('a' <= c <= 'f') || ('A' <= c <= 'F')
  }

  function HexVal(c: char): (r: int)
    requires IsHex(c)
    ensures 0 <= r < 16
  {
    if '0' <= c <= '9' then c as int - '0' as int
    else if 'a' <= c <= 'f' then c as int - 'a' as int + 10
    else c as int - 'A' as int + 10
  }

  /** The lower-case hex digit Go's encoder writes for `d`. */
  function HexDigit(d: int): (c: char)
    requires 0 <= d < 16
    ensures IsHex(c) && HexVal(c) == d
  {
    if d < 10 then ('0' as int + d) as char else ('a' as int + d - 10) as char
  }

  /** The value of four leading hex digits, if `s` starts with four. */
  function Hex4(s: string): (r: Option<int>)
    ensures r.Some? ==> 0 <= r.value < 0x10000
  {
    if |s| >= 4 && IsHex(s[0]) && IsHex(s[1]) && IsHex(s[2]) && IsHex(s[3]) then
      Some(((HexVal(s[0]) * 16 + HexVal(s[1])) * 16 + HexVal(s[2])) * 16 + HexVal(s[3]))
    else None
  }

  /** Four lower-case hex digits for a 16-bit value, as in a `\uXXXX` escape. */
  function Hex4Of(v: int): (r: string)
    requires 0 <= v < 0x10000
    ensures |r| == 4
  {
    var v1 := v / 16;
    var v2 := v1 / 16;
    [HexDigit(v2 / 16), HexDigit(v2 % 16), HexDigit(v1 % 16), HexDigit(v % 16)]
  }

  lemma Hex4RoundTrip(v: int, rest: string)
    requires 0 <= v < 0x10000
    ensures Hex4(Hex4Of(v) + rest) == Some(v)
  {
    var v1 := v / 16;
    var v2 := v1 / 16;
    assert v2 == (v2 / 16) * 16 + v2 % 16;
    assert v1 == v2 * 16 + v1 % 16;
    assert v == v1 * 16 + v % 16;
  }

  predicate IsSurrogate(v: int) {
    0xD800 <= v < 0xE000
  }

  /**
   * One escape sequence, `t` being the text after the backslash: the character
   * it stands for and the text after it. A high surrogate followed by an
   * escaped low surrogate decodes to the pair's character; any other
   * surrogate decodes to U+FFFD.
   */
  function Unescape(t: string): (r: Option<(char, string)>)
    ensures r.Some? ==> |r.value.1| < |t|
  {
    if |t| == 0 then None
    else if t[0] == '"' || t[0] == '\\' || t[0] == '/' then Some((t[0], t[1..]))
    else if t[0] == 'b' then Some((8 as char, t[1..]))
    else if t[0] == 'f' then Some((12 as char, t[1..]))
    else if t[0] == 'n' then Some(('\n', t[1..]))
    else if t[0] == 'r' then Some(('\r', t[1..]))
    else if t[0] == 't' then Some(('\t', t[1..]))
    else if t[0] == 'u' then
      match Hex4(t[1..])
      case None => None
      case Some(v) =>
        if !IsSurrogate(v) then Some((v as char, t[5..]))
        else if v < 0xDC00 && |t| >= 11 && t[5] == '\\' && t[6] == 'u'
                && Hex4(t[7..]).Some? && 0xDC00 <= Hex4(t[7..]).value < 0xE000 then
          var w := Hex4(t[7..]).value;
          Some(((0x10000 + (v - 0xD800) * 0x400 + (w - 0xDC00)) as char, t[11..]))
        else Some((0xFFFD as char, t[5..]))
    else None
  }

  /** Puts `c` in front of the decoded text of a lexing result. */
  function Prepend(c: char, r: Option<(string, string)>): Option<(string, string)> {
    match r
    case None => None
    case Some((d, rest)) => Some(([c] + d, rest))
  }

  /**
   * The body of a string literal, `s` being the text after the opening
   * quote: the decoded text and what follows the closing quote. Raw control
   * characters and unknown escapes are errors.
   */
  function LexString(s: string): (r: Option<(string, string)>)
    ensures r.Some? ==> |r.value.1| < |s|
    decreases |s|
  {
    if |s| == 0 then None
    else if s[0] == '"' then Some(("", s[1..]))
    else if s[0] == '\\' then
      match Unescape(s[1..])
      case None => None
      case Some((c, rest)) => Prepend(c, LexString(rest))
    else if s[0] < ' ' then None
    else Prepend(s[0], LexString(s[1..]))
  }

  /** A string literal or `null`, and the text after it. */
  function ParseScalar(s: string): (r: Option<(Value, string)>)
    ensures r.Some? ==> |r.value.1| < |s|
  {
    if |s| > 0 && s[0] == '"' then
      match LexString(s[1..])
      case None => None
      case Some((d, rest)) => Some((JString(d), rest))
    else if |s| >= 4 && s[..4] == "null" then Some((JNull, s[4..]))
    else None
  }

  /** The elements of a non-empty array up to and including its closing bracket. */
  function ParseItems(s: string): (r: Option<(seq<Value>, string)>)
    ensures r.Some? ==> |r.value.1| < |s|
    decreases |s|
  {
    var p := ParseScalar(s);
    if p.None? then None
    else
      var t := SkipWs(p.value.1);
      if |t| > 0 && t[0] == ']' then Some(([p.value.0], t[1..]))
      else if |t| > 0 && t[0] == ',' then
        var q := ParseItems(SkipWs(t[1..]));
        if q.None? then None else Some(([p.value.0] + q.value.0, q.value.1))
      else None
  }

  /** One JSON value and the text after it. */
  function ParseValue(s: string): (r: Option<(Value, string)>)
    ensures r.Some? ==> |r.value.1| < |s|
  {
    if |s| > 0 && s[0] == '[' then
      var t := SkipWs(s[1..]);
      if |t| > 0 && t[0] == ']' then Some((JArray([]), t[1..]))
      else
        match ParseItems(t)
        case None => None
        case Some((vs, rest)) => Some((JArray(vs), rest))
    else ParseScalar(s)
  }

  /** A whole document: one value, with only whitespace around it. */
  function Parse(data: string): Option<Value> {
    match ParseValue(SkipWs(data))
    case None => None
    case Some((v, rest)) => if SkipWs(rest) == "" then Some(v) else None
  }

  /** `json.Unmarshal` into a fresh `string`: `null` leaves it empty. */
  function DecodeString(data: string): (r: Result<string, DecodeError>)
    ensures r.Ok? <==> Parse(data).Some? && !Parse(data).value.JArray?
    ensures r.Ok? && Parse(data).value.JString? ==> r.value == Parse(data).value.s
    ensures r.Ok? && Parse(data).value.JNull? ==> r.value == ""
    ensures r.Err? ==> (r.error == WrongKind <==> Parse(data).Some?)
  {
    match Parse(data)
    case None => Err(Malformed)
    case Some(JNull) => Ok("")
    case Some(JString(s)) => Ok(s)
    case Some(JArray(_)) => Err(WrongKind)
  }

  /** The Go string one array element leaves behind: its text, or "" for `null`. */
  function ElemText(v: Value): string {
    if v.JString? then v.s else ""
  }

  /**
   * The Go strings an array's elements decode to; a `null` element becomes "".
   * Decoding fails exactly when some element is itself an array.
   */
  function ElemStrings(elems: seq<Value>): (r: Result<seq<string>, DecodeError>)
    ensures r.Ok? <==> forall i :: 0 <= i < |elems| ==> !elems[i].JArray?
    ensures r.Err? ==> r.error == WrongKind
    ensures r.Ok? ==> |r.value| == |elems|
    ensures r.Ok? ==> forall i :: 0 <= i < |elems| ==> r.value[i] == ElemText(elems[i])
    decreases |elems|
  {
    if |elems| == 0 then Ok([])
    else
      match ElemStrings(elems[1..])
      case Err(e) => Err(e)
      case Ok(rest) =>
        match elems[0]
        case JNull => Ok([""] + rest)
        case JString(s) => Ok([s] + rest)
        case JArray(_) => Err(WrongKind)
  }

  /** `json.Unmarshal` into a fresh `[]string`: `null` leaves it empty. */
  function DecodeStrings(data: string): (r: Result<seq<string>, DecodeError>)
    ensures r.Ok? ==> Parse(data).Some? && !Parse(data).value.JString?
    ensures r.Ok? && Parse(data).value.JNull? ==> r.value == []
    ensures r.Ok? && Parse(data).value.JArray? ==> |r.value| == |Parse(data).value.elems|
    ensures r.Ok? && Parse(data).value.JArray? ==>
      forall i :: 0 <= i < |r.value| ==> r.value[i] == ElemText(Parse(data).value.elems[i])
    ensures Parse(data).None? ==> r == Err(Malformed)
  {
    match Parse(data)
    case None => Err(Malformed)
    case Some(JNull) => Ok([])
    case Some(JString(_)) => Err(WrongKind)
    case Some(JArray(elems)) => ElemStrings(elems)
  }

  /**
   * How Go's encoder writes one character inside a string literal (HTML
   * escaping on, as `json.Marshal` does): quote and backslash are escaped,
   * control characters, `<`, `>`, `&`, U+2028 and U+2029 get an escape,
   * everything else is written as is.
   */
  function EscapeChar(c: char): string {
    if c == '"' then "\\\""
    else if c == '\\' then "\\\\"
    else if c == '\n' then "\\n"
    else if c == '\r' then "\\r"
    else if c == '\t' then "\\t"
    else if c == 8 as char then "\\b"
    else if c == 12 as char then "\\f"
    else if c < ' ' || c == '<' || c == '>' || c == '&' || c == 0x2028 as char || c == 0x2029 as char then
      "\\u" + Hex4Of(c as int)
    else [c]
  }

  function MarshalBody(s: string): string
    decreases |s|
  {
    if |s| == 0 then "" else EscapeChar(s[0]) + MarshalBody(s[1..])
  }

  /** `json.Marshal` of a Go string: a quoted, escaped literal. */
  function MarshalString(s: string): (r: string)
    ensures |r| >= |s| + 2
    ensures r[0] == '"' && r[|r| - 1] == '"'
  {
    MarshalBodyLength(s);
    "\"" + MarshalBody(s) + "\""
  }

  lemma {:induction false} MarshalBodyLength(s: string)
    ensures |MarshalBody(s)| >= |s|
    decreases |s|
  {
    if |s| > 0 {
      MarshalBodyLength(s[1..]);
    }
  }

  /** The comma-separated literals of a list, without brackets. */
  function MarshalElems(xs: seq<string>): (r: string)
    ensures |xs| > 0 ==> |r| > 0 && r[0] == '"'
    decreases |xs|
  {
    if |xs| == 0 then ""
    else if |xs| == 1 then MarshalString(xs[0])
    else MarshalString(xs[0]) + "," + MarshalElems(xs[1..])
  }

  /** `json.Marshal` of a non-nil Go `[]string`: a bracketed list of literals. */
  function MarshalStrings(xs: seq<string>): (r: string)
    ensures |r| >= 2 && r[0] == '[' && r[|r| - 1] == ']'
  {
    "[" + MarshalElems(xs) + "]"
  }

  /** The JSON value of a list of strings. */
  function JStrings(xs: seq<string>): (r: seq<Value>)
    ensures |r| == |xs|
    decreases |xs|
  {
    if |xs| == 0 then [] else [JString(xs[0])] + JStrings(xs[1..])
  }

  /** Lexing an escaped character consumes exactly its escape. */
  lemma LexEscapeChar(c: char, tail: string)
    ensures LexString(EscapeChar(c) + tail) == Prepend(c, LexString(tail))
  {
    if c == '"' || c == '\\' || c == '\n' || c == '\r' || c == '\t' || c == 8 as char || c == 12 as char {
      LexShortEscape(c, tail);
    } else if c < ' ' || c == '<' || c == '>' || c == '&' || c == 0x2028 as char || c == 0x2029 as char {
      LexUnicodeEscape(c, tail);
    } else {
      var x := EscapeChar(c) + tail;
      assert x[0] == c && x[1..] == tail;
    }
  }

  /** The two-character escapes lex back to their character. */
  lemma LexShortEscape(c: char, tail: string)
    requires c == '"' || c == '\\' || c == '\n' || c == '\r' || c == '\t' || c == 8 as char || c == 12 as char
    ensures LexString(EscapeChar(c) + tail) == Prepend(c, LexString(tail))
  {
    var x := EscapeChar(c) + tail;
    assert |EscapeChar(c)| == 2 && EscapeChar(c)[0] == '\\';
    assert x[0] == '\\' && x[1..][1..] == tail;
  }

  /** The `\uXXXX` escapes lex back to their character. */
  lemma LexUnicodeEscape(c: char, tail: string)
    requires !(c == '"' || c == '\\' || c == '\n' || c == '\r' || c == '\t' || c == 8 as char || c == 12 as char)
    requires c < ' ' || c == '<' || c == '>' || c == '&' || c == 0x2028 as char || c == 0x2029 as char
    ensures LexString(EscapeChar(c) + tail) == Prepend(c, LexString(tail))
  {
    var x := EscapeChar(c) + tail;
    assert EscapeChar(c) == "\\u" + Hex4Of(c as int);
    var t := x[1..];
    assert x[0] == '\\';
    assert t == "u" + Hex4Of(c as int) + tail;
    assert t[1..] == Hex4Of(c as int) + tail;
    Hex4RoundTrip(c as int, tail);
    assert !IsSurrogate(c as int);
    assert t[5..] == tail;
  }

  /** An encoded string body followed by a closing quote lexes back to the string. */
  lemma {:induction false} LexMarshalBody(s: string, rest: string)
    ensures LexString(MarshalBody(s) + "\"" + rest) == Some((s, rest))
    decreases |s|
  {
    if |s| == 0 {
      assert MarshalBody(s) + "\"" + rest == "\"" + rest;
    } else {
      var tail := MarshalBody(s[1..]) + "\"" + rest;
      assert MarshalBody(s) + "\"" + rest == EscapeChar(s[0]) + tail;
      LexEscapeChar(s[0], tail);
      LexMarshalBody(s[1..], rest);
      assert [s[0]] + s[1..] == s;
    }
  }

  /** A marshalled string followed by anything parses as that string. */
  lemma ScalarMarshalString(x: string, rest: string)
    ensures ParseScalar(MarshalString(x) + rest) == Some((JString(x), rest))
  {
    var d := MarshalString(x) + rest;
    assert d[1..] == MarshalBody(x) + "\"" + rest;
    LexMarshalBody(x, rest);
  }

  /** Marshalling a string and parsing it back gives the string. */
  lemma ParseMarshalString(x: string)
    ensures Parse(MarshalString(x)) == Some(JString(x))
    ensures DecodeString(MarshalString(x)) == Ok(x)
  {
    ScalarMarshalString(x, "");
    assert MarshalString(x) + "" == MarshalString(x);
  }

  /** `ParseItems` on a last element: the closing bracket ends the list. */
  lemma ItemsLast(s: string, v: Value, rest: string)
    requires ParseScalar(s) == Some((v, "]" + rest))
    ensures ParseItems(s) == Some(([v], rest))
  {
    assert SkipWs("]" + rest) == "]" + rest;
    assert ("]" + rest)[1..] == rest;
  }

  /** Text that starts with a non-space loses nothing to whitespace skipping. */
  lemma SkipWsNone(s: string)
    requires |s| > 0 && !IsWs(s[0])
    ensures SkipWs(s) == s
  {
  }

  /** `ParseItems` on an element followed by a comma and more elements. */
  lemma ItemsNext(s: string, v: Value, tail: string)
    requires ParseScalar(s) == Some((v, "," + tail))
    requires SkipWs(tail) == tail
    requires ParseItems(tail).Some?
    ensures ParseItems(s) == Some(([v] + ParseItems(tail).value.0, ParseItems(tail).value.1))
  {
    var u := "," + tail;
    SkipWsNone(u);
    assert u[0] == ',' && u[1..] == tail;
    var q := ParseItems(tail);
    assert ParseItems(SkipWs(u[1..])) == q;
  }

  /** A marshalled last element parses, closing bracket included. */
  lemma ItemsMarshalLast(x: string, rest: string)
    ensures ParseItems(MarshalString(x) + ("]" + rest)) == Some(([JString(x)], rest))
  {
    ScalarMarshalString(x, "]" + rest);
    ItemsLast(MarshalString(x) + ("]" + rest), JString(x), rest);
  }

  /** A marshalled element followed by a comma and more elements parses as their head. */
  lemma ItemsMarshalNext(x: string, tail: string)
    requires SkipWs(tail) == tail
    requires ParseItems(tail).Some?
    ensures ParseItems(MarshalString(x) + ("," + tail))
         == Some(([JString(x)] + ParseItems(tail).value.0, ParseItems(tail).value.1))
  {
    ScalarMarshalString(x, "," + tail);
    ItemsNext(MarshalString(x) + ("," + tail), JString(x), tail);
  }

  /** The elements of a marshalled non-empty list parse back, bracket included. */
  lemma {:induction false} ItemsMarshalElems(xs: seq<string>, rest: string)
    requires |xs| > 0
    ensures ParseItems(MarshalElems(xs) + "]" + rest) == Some((JStrings(xs), rest))
    decreases |xs|
  {
    if |xs| == 1 {
      assert MarshalElems(xs) + "]" + rest == MarshalString(xs[0]) + ("]" + rest);
      ItemsMarshalLast(xs[0], rest);
      assert JStrings(xs) == [JString(xs[0])];
    } else {
      var tail := MarshalElems(xs[1..]) + "]" + rest;
      assert MarshalElems(xs) + "]" + rest == MarshalString(xs[0]) + ("," + tail);
      SkipWsNone(tail);
      ItemsMarshalElems(xs[1..], rest);
      ItemsMarshalNext(xs[0], tail);
      assert [JString(xs[0])] + JStrings(xs[1..]) == JStrings(xs);
    }
  }

  lemma {:induction false} ElemStringsOfStrings(xs: seq<string>)
    ensures ElemStrings(JStrings(xs)) == Ok(xs)
    decreases |xs|
  {
    if |xs| > 0 {
      ElemStringsOfStrings(xs[1..]);
      assert JStrings(xs)[1..] == JStrings(xs[1..]);
      assert [xs[0]] + xs[1..] == xs;
    }
  }

  /** `[` followed by the items of a non-empty array is that array. */
  lemma ValueArray(u: string, vs: seq<Value>)
    requires SkipWs(u) == u && |u| > 0 && u[0] != ']'
    requires ParseItems(u) == Some((vs, ""))
    ensures ParseValue("[" + u) == Some((JArray(vs), ""))
  {
    assert ("[" + u)[1..] == u;
  }

  /** `[`, then items starting with a quote and using up the text, is a whole document. */
  lemma ParseArrayText(u: string, vs: seq<Value>)
    requires |u| > 0 && u[0] == '"'
    requires ParseItems(u) == Some((vs, ""))
    ensures Parse("[" + u) == Some(JArray(vs))
  {
    SkipWsNone(u);
    ValueArray(u, vs);
    ParseWhole("[" + u, JArray(vs));
  }

  /** A value that starts the document and uses it up is the document. */
  lemma ParseWhole(d: string, v: Value)
    requires |d| > 0 && !IsWs(d[0])
    requires ParseValue(d) == Some((v, ""))
    ensures Parse(d) == Some(v)
  {
  }

  /** Leading whitespace does not change what a document parses to. */
  lemma ParseLeadingSpace(d: string)
    ensures Parse(" " + d) == Parse(d)
  {
    assert (" " + d)[1..] == d;
  }

  /** Marshalling a list and parsing it back gives the list's elements. */
  lemma ParseMarshalStrings(xs: seq<string>)
    ensures Parse(MarshalStrings(xs)) == Some(JArray(JStrings(xs)))
    ensures DecodeStrings(MarshalStrings(xs)) == Ok(xs)
  {
    if |xs| == 0 {
      assert MarshalStrings(xs) == "[]";
    } else {
      ParseMarshalNonEmpty(xs);
    }
    ElemStringsOfStrings(xs);
  }

  /** A marshalled non-empty list is parsed as the array of its elements. */
  lemma ParseMarshalNonEmpty(xs: seq<string>)
    requires |xs| > 0
    ensures Parse(MarshalStrings(xs)) == Some(JArray(JStrings(xs)))
  {
    var u := MarshalElems(xs) + "]";
    assert ParseItems(u) == Some((JStrings(xs), "")) by {
      ItemsMarshalElems(xs, "");
      assert u + "" == u;
    }
    assert Parse("[" + u) == Some(JArray(JStrings(xs))) by {
      ParseArrayText(u, JStrings(xs));
    }
    assert MarshalStrings(xs) == "[" + u;
  }
}

=== FILE: models.dfy ===
/**
 * The value types of models.go that carry behaviour: the two defensive JSON
 * codecs `StringOrArray` and `EnforcedString`, the error-type classifier
 * `ParseAPIErrType`, and `APIError`.
 */
module Models {
  import opened Wrappers
  import opened Text
  import opened Json

  /**
   * What an `UnmarshalJSON` call leaves behind: the receiver's value after
   * the call and the error it returned (`None` for a nil error).
   */
  datatype Decoded<T> = Decoded(value: T, err: Option<DecodeError>)

  // ---------------------------------------------------------------------
  // StringOrArray: one JSON string or an array of strings, held as a list.
  // ---------------------------------------------------------------------

  /** The test `UnmarshalJSON` uses to pick the array reading. */
  predicate StartsArray(data: string) {
    |data| > 1 && data[0] == '['
  }

  /**
   * `StringOrArray.UnmarshalJSON`: text of more than one character starting
   * with `[` is read as an array of strings, anything else as one string
   * wrapped in a one-element list. A failed decode returns its error and
   * leaves the receiver `recv` as it was.
   */
  function UnmarshalStringOrArray(recv: seq<string>, data: string): (r: Decoded<seq<string>>)
    ensures r.err.Some? ==> r.value == recv
    ensures StartsArray(data) && DecodeStrings(data).Err? ==> r.err == Some(DecodeStrings(data).error)
    ensures !StartsArray(data) && DecodeString(data).Err? ==> r.err == Some(DecodeString(data).error)
    ensures r.err.None? && StartsArray(data) ==> Parse(data).Some? && Parse(data).value.JArray?
    ensures r.err.None? && StartsArray(data) ==> DecodeStrings(data).Ok? && r.value == DecodeStrings(data).value
    ensures r.err.None? && !StartsArray(data) ==> |r.value| == 1
    ensures r.err.None? && !StartsArray(data) ==>
      Parse(data) == Some(JString(r.value[0])) || (Parse(data) == Some(JNull) && r.value == [""])
  {
    if StartsArray(data) then
      match DecodeStrings(data)
      case Err(e) => Decoded(recv, Some(e))
      case Ok(xs) => Decoded(xs, None)
    else
      match DecodeString(data)
      case Err(e) => Decoded(recv, Some(e))
      case Ok(x) => Decoded([x], None)
  }

  /** Array text decodes to the array's elements, in order. */
  lemma StringOrArrayReadsArray(recv: seq<string>, data: string, xs: seq<string>)
    requires StartsArray(data)
    requires Parse(data) == Some(JArray(JStrings(xs)))
    ensures UnmarshalStringOrArray(recv, data) == Decoded(xs, None)
  {
    ElemStringsOfStrings(xs);
  }

  /** Any other text holding a string decodes to that string alone. */
  lemma StringOrArrayReadsScalar(recv: seq<string>, data: string, x: string)
    requires !StartsArray(data)
    requires Parse(data) == Some(JString(x))
    ensures UnmarshalStringOrArray(recv, data) == Decoded([x], None)
  {
  }

  /**
   * `StringOrArray.MarshalJSON`: a one-element list is written as a bare
   * JSON string, a list of any other length as a JSON array.
   */
  function MarshalStringOrArray(xs: seq<string>): (r: string)
    ensures |r| >= 2
    ensures r[0] == '"' <==> |xs| == 1
    ensures r[0] == '[' <==> |xs| != 1
  {
    if |xs| == 1 then MarshalString(xs[0]) else MarshalStrings(xs)
  }

  /** Encoding a list and decoding it back gives the list, whatever the receiver held. */
  lemma StringOrArrayRoundTrip(recv: seq<string>, xs: seq<string>)
    ensures UnmarshalStringOrArray(recv, MarshalStringOrArray(xs)) == Decoded(xs, None)
  {
    if |xs| == 1 {
      ParseMarshalString(xs[0]);
      assert [xs[0]] == xs;
    } else {
      ParseMarshalStrings(xs);
    }
  }

  /**
   * The wire array `["x"]` decodes to the list `[x]`, which encodes back as
   * the bare string `"x"`, not as the array it came from.
   */
  lemma SingletonArrayCollapses(recv: seq<string>, x: string)
    ensures UnmarshalStringOrArray(recv, MarshalStrings([x])) == Decoded([x], None)
    ensures MarshalStringOrArray([x]) == MarshalString(x)
    ensures MarshalStringOrArray([x]) != MarshalStrings([x])
  {
    ParseMarshalStrings([x]);
    assert JStrings([x]) == [JString(x)];
  }

  /** `null` is not an array, so it goes down the single-string reading and becomes one empty string. */
  lemma NullDecodesToEmptyString(recv: seq<string>)
    ensures UnmarshalStringOrArray(recv, "null") == Decoded([""], None)
  {
    assert "null"[..4] == "null" && "null"[4..] == "";
    assert ParseScalar("null") == Some((JNull, ""));
    assert ParseValue("null") == Some((JNull, ""));
    SkipWsNone("null");
    assert SkipWs("") == "";
    assert Parse("null") == Some(JNull);
  }

  /**
   * The length test in front of the array reading changes nothing the caller
   * can see: the one text it diverts, a lone `[`, fails on either reading.
   */
  lemma LoneBracketFailsEitherWay(recv: seq<string>)
    ensures UnmarshalStringOrArray(recv, "[") == Decoded(recv, Some(Malformed))
    ensures DecodeStrings("[").Err?
  {
    assert ParseScalar("") == None;
    assert ParseItems("") == None;
    assert SkipWs("") == "";
    assert "["[1..] == "";
    assert ParseValue("[") == None;
    assert SkipWs("[") == "[";
    assert Parse("[") == None;
  }

  /**
   * Only the very first character picks the reading: an encoded array with
   * a space in front goes down the single-string reading and fails there.
   */
  lemma LeadingSpaceDefeatsArray(recv: seq<string>, xs: seq<string>)
    ensures UnmarshalStringOrArray(recv, " " + MarshalStrings(xs)) == Decoded(recv, Some(WrongKind))
  {
    ParseMarshalStrings(xs);
    ParseLeadingSpace(MarshalStrings(xs));
  }

  // ---------------------------------------------------------------------
  // EnforcedString: a string that may arrive without its quotes.
  // ---------------------------------------------------------------------

  /** The first repair pass: every quote becomes an escaped quote. It never shortens the text. */
  function EscapeQuotes(data: string): (r: string)
    ensures |r| >= |data|
  {
    ReplaceAll(data, "\"", "\\\"")
  }

  /** The first pass cuts the text at its quotes and joins the pieces with `\"`. */
  lemma EscapeQuotesJoinsPieces(data: string)
    ensures EscapeQuotes(data) == Join(Split(data, '"'), "\\\"")
  {
    ReplaceCharIsJoinSplit(data, '"', "\\\"");
    assert "\"" == ['"'];
  }

  /**
   * The second repair pass: every `\\"` collapses to `\"`. It never makes
   * the text longer, and it leaves text without quotes alone.
   */
  function CollapseEscapes(data: string): (r: string)
    ensures |r| <= |data|
    ensures '"' !in data ==> r == data
  {
    DoubleEscapeHasQuote(data);
    ReplaceAll(data, "\\\\\"", "\\\"")
  }

  /** Every quote in `p` has a backslash right in front of it. */
  ghost predicate QuotesEscaped(p: string) {
    forall i :: 0 <= i < |p| && p[i] == '"' ==> 0 < i && p[i - 1] == '\\'
  }

  /** Every quote after the first character of `p` has a backslash in front of it. */
  ghost predicate QuotesEscapedAfterFirst(p: string) {
    forall i :: 1 <= i < |p| && p[i] == '"' ==> p[i - 1] == '\\'
  }

  /** After the first pass every quote is escaped. */
  lemma {:induction false} EscapeQuotesEscapes(s: string)
    ensures QuotesEscaped(EscapeQuotes(s))
    ensures |EscapeQuotes(s)| >= |s|
    decreases |s|
  {
    if |s| > 0 {
      EscapeQuotesEscapes(s[1..]);
      var x := EscapeQuotes(s[1..]);
      if IsPrefix("\"", s) {
        assert EscapeQuotes(s) == "\\\"" + x;
      } else {
        assert EscapeQuotes(s) == [s[0]] + x;
      }
    }
  }

  /**
   * The second pass keeps every quote after the first character escaped,
   * and it keeps the first character.
   */
  lemma {:induction false} CollapseKeepsEscapes(s: string)
    requires QuotesEscapedAfterFirst(s)
    ensures QuotesEscapedAfterFirst(CollapseEscapes(s))
    ensures |s| > 0 ==> |CollapseEscapes(s)| > 0 && CollapseEscapes(s)[0] == s[0]
    decreases |s|
  {
    var pat := "\\\\\"";
    if |s| >= 3 {
      if IsPrefix(pat, s) {
        var t := s[3..];
        assert QuotesEscapedAfterFirst(t) by {
          forall j | 1 <= j < |t| && t[j] == '"' ensures t[j - 1] == '\\' {
            assert s[j + 3] == '"';
          }
        }
        CollapseKeepsEscapes(t);
        var x := CollapseEscapes(t);
        assert CollapseEscapes(s) == "\\\"" + x;
        // s[2] is a quote, so s[3] cannot be one.
        assert s[2] == s[..3][2] == '"';
        assert |t| > 0 ==> t[0] != '"';
      } else {
        var t := s[1..];
        assert QuotesEscapedAfterFirst(t) by {
          forall j | 1 <= j < |t| && t[j] == '"' ensures t[j - 1] == '\\' {
            assert s[j + 1] == '"';
          }
        }
        CollapseKeepsEscapes(t);
        var x := CollapseEscapes(t);
        assert CollapseEscapes(s) == [s[0]] + x;
        assert |t| > 0 && t[0] == '"' ==> s[0] == '\\' by {
          if |t| > 0 && t[0] == '"' {
            assert s[1] == '"';
          }
        }
      }
    }
  }

  /**
   * The repair applied to a payload that does not start with a quote: both
   * passes, then a quote on either side.
   */
  function Repair(data: string): (r: string)
    ensures |r| == |CollapseEscapes(EscapeQuotes(data))| + 2
    ensures r[0] == '"' && r[|r| - 1] == '"'
    ensures r[1..|r| - 1] == CollapseEscapes(EscapeQuotes(data))
  {
    "\"" + CollapseEscapes(EscapeQuotes(data)) + "\""
  }

  /** Inside the repaired payload every quote has a backslash in front of it. */
  lemma RepairEscapesQuotes(data: string)
    ensures QuotesEscaped(Repair(data)[1..|Repair(data)| - 1])
  {
    var p := EscapeQuotes(data);
    EscapeQuotesEscapes(data);
    CollapseKeepsEscapes(p);
  }

  /** A one-character pattern occurs exactly where that character does. */
  lemma ContainsChar(s: string, c: char)
    ensures Contains(s, [c]) <==> c in s
  {
    ContainsIffOccurs(s, [c]);
    if c in s {
      var i :| 0 <= i < |s| && s[i] == c;
      assert OccursAt(s, [c], i);
    }
    if i :| OccursAt(s, [c], i) {
      assert s[i] == c;
    }
  }

  /** Text that contains `\\"` contains a quote. */
  lemma DoubleEscapeHasQuote(s: string)
    ensures Contains(s, "\\\\\"") ==> '"' in s
  {
    ContainsIffOccurs(s, "\\\\\"");
    if i :| OccursAt(s, "\\\\\"", i) {
      assert s[i..i + 3] == "\\\\\"";
      assert s[i + 2] == s[i..i + 3][2];
    }
  }

  /** A payload without quotes is only wrapped in quotes. */
  lemma RepairWithoutQuotes(data: string)
    requires '"' !in data
    ensures Repair(data) == "\"" + data + "\""
  {
    ContainsChar(data, '"');
    assert "\"" == ['"'];
  }

  /**
   * `EnforcedString.UnmarshalJSON` on non-empty text: text starting with a
   * quote is decoded as it is, anything else is repaired first. The receiver
   * is overwritten whatever happens, with "" when decoding fails, so its value
   * afterwards depends on the text alone.
   */
  function UnmarshalEnforced(data: string): (r: Decoded<string>)
    requires |data| > 0
    ensures r.err.Some? ==> r.value == ""
    ensures data[0] == '"' && DecodeString(data).Err? ==> r.err == Some(DecodeString(data).error)
    ensures data[0] != '"' && DecodeString(Repair(data)).Err? ==> r.err == Some(DecodeString(Repair(data)).error)
    ensures data[0] == '"' ==> (r.err.None? <==> DecodeString(data).Ok?)
    ensures data[0] == '"' && DecodeString(data).Ok? ==> r.value == DecodeString(data).value
    ensures data[0] != '"' ==> (r.err.None? <==> DecodeString(Repair(data)).Ok?)
    ensures data[0] != '"' && DecodeString(Repair(data)).Ok? ==> r.value == DecodeString(Repair(data)).value
  {
    var text := if data[0] != '"' then Repair(data) else data;
    match DecodeString(text)
    case Ok(v) => Decoded(v, None)
    case Err(e) => Decoded("", Some(e))
  }

  /** `EnforcedString.MarshalJSON`: the plain JSON string literal. */
  function MarshalEnforced(s: string): (r: string)
    ensures |r| >= 2 && r[0] == '"'
  {
    MarshalString(s)
  }

  /** Encoding an enforced string and decoding it back gives the string. */
  lemma EnforcedRoundTrip(s: string)
    ensures UnmarshalEnforced(MarshalEnforced(s)) == Decoded(s, None)
  {
    ParseMarshalString(s);
  }

  /** Text without quotes decodes the same with or without the quotes around it. */
  lemma UnquotedAgreesWithQuoted(s: string)
    requires |s| > 0 && '"' !in s
    ensures UnmarshalEnforced(s) == UnmarshalEnforced("\"" + s + "\"")
  {
    RepairWithoutQuotes(s);
  }

  /** Text fit to appear raw inside a JSON string literal once its quotes are escaped. */
  predicate PlainText(s: string) {
    forall i :: 0 <= i < |s| ==> s[i] != '\\' && s[i] >= ' '
  }

  /** The first pass followed by a closing quote lexes back to the plain text. */
  lemma {:induction false} LexEscapedQuotes(s: string, rest: string)
    requires PlainText(s)
    ensures LexString(EscapeQuotes(s) + "\"" + rest) == Some((s, rest))
    decreases |s|
  {
    if |s| == 0 {
      assert EscapeQuotes(s) + "\"" + rest == "\"" + rest;
    } else {
      LexEscapedQuotes(s[1..], rest);
      var tail := EscapeQuotes(s[1..]) + "\"" + rest;
      EscapeQuotesStep(s);
      if s[0] == '"' {
        assert EscapeQuotes(s) + "\"" + rest == EscapeChar('"') + tail;
        LexEscapeChar('"', tail);
      } else {
        assert EscapeQuotes(s) + "\"" + rest == [s[0]] + tail;
        LexPlainChar(s[0], tail);
      }
      assert [s[0]] + s[1..] == s;
    }
  }

  /** The first pass over plain text leaves nothing for the second pass to collapse. */
  lemma {:induction false} EscapedQuotesCollapseFree(s: string)
    requires PlainText(s)
    ensures CollapseEscapes(EscapeQuotes(s)) == EscapeQuotes(s)
    decreases |s|
  {
    if |s| > 0 {
      EscapedQuotesCollapseFree(s[1..]);
      EscapeQuotesStep(s);
      if s[0] == '"' {
        CollapseQuoteStep(EscapeQuotes(s[1..]));
      } else {
        CollapsePlainStep(s[0], EscapeQuotes(s[1..]));
      }
    }
  }

  /** The first pass consumes one character at a time: a quote becomes `\"`, anything else stays. */
  lemma EscapeQuotesStep(s: string)
    requires |s| > 0
    ensures s[0] == '"' ==> EscapeQuotes(s) == "\\\"" + EscapeQuotes(s[1..])
    ensures s[0] != '"' ==> EscapeQuotes(s) == [s[0]] + EscapeQuotes(s[1..])
  {
    if s[0] != '"' {
      assert !IsPrefix("\"", s);
    }
  }

  /** A printable character other than a quote or backslash lexes as itself. */
  lemma LexPlainChar(c: char, tail: string)
    requires c != '"' && c != '\\' && c >= ' '
    ensures LexString([c] + tail) == Prepend(c, LexString(tail))
  {
    assert ([c] + tail)[1..] == tail;
  }

  lemma CollapseQuoteStep(x: string)
    ensures CollapseEscapes("\\\"" + x) == "\\\"" + CollapseEscapes(x)
  {
    var s := "\\\"" + x;
    assert s[1..] == "\"" + x;
    CollapsePlainStep('"', x);
    assert !IsPrefix("\\\\\"", s) by {
      if |s| >= 3 {
        assert s[1] == '"';
      }
    }
  }

  /** The second pass steps over any character other than a backslash. */
  lemma CollapsePlainStep(c: char, x: string)
    requires c != '\\'
    ensures CollapseEscapes([c] + x) == [c] + CollapseEscapes(x)
  {
    assert ([c] + x)[1..] == x;
  }

  /**
   * The repair loses nothing on text without backslashes or control
   * characters: such text that does not start with a quote decodes to
   * exactly itself, embedded quotes included.
   */
  lemma RepairIsLossless(data: string)
    requires |data| > 0 && data[0] != '"' && PlainText(data)
    ensures UnmarshalEnforced(data) == Decoded(data, None)
  {
    LexEscapedQuotes(data, "");
    EscapedQuotesCollapseFree(data);
    var d := Repair(data);
    assert d == "\"" + (EscapeQuotes(data) + "\"" + "");
    ScalarLiteral(EscapeQuotes(data) + "\"" + "", data);
  }

  /** A quote followed by a closed literal body is a whole document holding that string. */
  lemma ScalarLiteral(body: string, s: string)
    requires LexString(body) == Some((s, ""))
    ensures DecodeString("\"" + body) == Ok(s)
  {
    var d := "\"" + body;
    assert d[0] == '"' && d[1..] == body;
    SkipWsNone(d);
    assert ParseScalar(d) == Some((JString(s), ""));
    assert ParseValue(d) == Some((JString(s), ""));
  }

  /**
   * The repair is a heuristic: plain unquoted text ending in a backslash is
   * wrapped into a literal whose closing quote is escaped, so decoding fails
   * and the receiver is cleared.
   */
  lemma TrailingBackslashDefeatsRepair(s: string)
    requires PlainText(s) && '"' !in s
    ensures UnmarshalEnforced(s + "\\") == Decoded("", Some(Malformed))
  {
    var data := s + "\\";
    assert '"' !in data;
    RepairWithoutQuotes(data);
    assert Repair(data) == "\"" + (s + "\\\"");
    LexEscapedEnd(s);
    UnclosedLiteral(s + "\\\"");
  }

  /** Plain text followed by an escaped quote never reaches a closing quote. */
  lemma {:induction false} LexEscapedEnd(s: string)
    requires PlainText(s) && '"' !in s
    ensures LexString(s + "\\\"") == None
    decreases |s|
  {
    var x := s + "\\\"";
    if |s| == 0 {
      assert x == "\\\"";
      assert x[1..] == "\"";
      assert Unescape("\"") == Some(('"', ""));
    } else {
      LexEscapedEnd(s[1..]);
      assert x[1..] == s[1..] + "\\\"";
    }
  }

  /** A quote followed by a body that never closes is malformed. */
  lemma UnclosedLiteral(body: string)
    requires LexString(body) == None
    ensures DecodeString("\"" + body) == Err(Malformed)
  {
    var d := "\"" + body;
    assert d[0] == '"' && d[1..] == body;
    SkipWsNone(d);
    assert ParseScalar(d) == None;
    assert ParseValue(d) == None;
  }

  // ---------------------------------------------------------------------
  // API error classification.
  // ---------------------------------------------------------------------

  /** `APIErrType`: the two error categories the client tells apart. */
  datatype APIErrType = Unknown | InvalidGrant {
    /** The string constant Go uses for the category; the two constants differ. */
    function Name(): (r: string)
      ensures this == Unknown <==> r == "unknown"
      ensures this == InvalidGrant <==> r == "oauth: invalid grant"
    {
      match this
      case Unknown => "unknown"
      case InvalidGrant => "oauth: invalid grant"
    }
  }

  /**
   * `ParseAPIErrType`, `err` being the text of a Go error or `None` for nil:
   * an error whose text mentions `invalid_grant` is an invalid grant,
   * everything else, nil included, is unknown.
   */
  function ParseAPIErrType(err: Option<string>): (t: APIErrType)
    ensures t == InvalidGrant <==> err.Some? && Contains(err.value, "invalid_grant")
    ensures t == Unknown <==> err.None? || !Contains(err.value, "invalid_grant")
  {
    if err.None? then Unknown
    else if Contains(err.value, "invalid_grant") then InvalidGrant
    else Unknown
  }

  /** An error is an invalid grant exactly when `invalid_grant` occurs at some index of its text. */
  lemma InvalidGrantIffOccurs(text: string)
    ensures ParseAPIErrType(Some(text)) == InvalidGrant <==> exists i :: OccursAt(text, "invalid_grant", i)
  {
    ContainsIffOccurs(text, "invalid_grant");
  }

  /** `APIError`: a status code (0 when none applies), a message and a category. */
  datatype APIError = APIError(code: int, message: string, errType: APIErrType) {
    /** `APIError.Error()`: the error's text is its message. */
    function Error(): string {
      message
    }
  }
}

=== FILE: text.dfy ===
/**
 * The Go standard-library string operations the client relies on
 * (`strings.Join`, `strings.Contains`, `strings.TrimRight`,
 * `bytes.ReplaceAll`), each defined once and tied to an independent
 * characterisation or to its inverse. `Split` is not called by the client:
 * it is the reference inverse of `Join` that describes what `makeURL` builds.
 */
module Text {

  /** `p` is a prefix of `s`. */
  predicate IsPrefix(p: string, s: string) {
    |p| <= |s| && s[..|p|] == p
  }

  /** `sub` occurs in `s` at index `i`. */
  ghost predicate OccursAt(s: string, sub: string, i: int) {
    0 <= i && i + |sub| <= |s| && s[i..i + |sub|] == sub
  }

  /** `strings.Contains`: `sub` occurs somewhere in `s`. */
  predicate Contains(s: string, sub: string)
    decreases |s|
  {
    IsPrefix(sub, s) || (|s| > 0 && Contains(s[1..], sub))
  }

  /** The scanning definition of `Contains` agrees with "there is an index where `sub` occurs". */
  lemma {:induction false} ContainsIffOccurs(s: string, sub: string)
    ensures Contains(s, sub) <==> exists i :: OccursAt(s, sub, i)
    decreases |s|
  {
    if IsPrefix(sub, s) {
      assert OccursAt(s, sub, 0);
    } else if |s| > 0 {
      ContainsIffOccurs(s[1..], sub);
      if Contains(s[1..], sub) {
        var j :| OccursAt(s[1..], sub, j);
        assert s[1..][j..j + |sub|] == s[j + 1..j + 1 + |sub|];
        assert OccursAt(s, sub, j + 1);
      }
      if i :| OccursAt(s, sub, i) {
        assert i != 0;
        assert s[1..][i - 1..i - 1 + |sub|] == s[i..i + |sub|];
        assert OccursAt(s[1..], sub, i - 1);
      }
    } else {
      if i :| OccursAt(s, sub, i) {
        assert false;
      }
    }
  }

  /** A string contains every piece it is assembled from. */
  lemma ContainsPiece(a: string, sub: string, b: string)
    ensures Contains(a + sub + b, sub)
  {
    var s := a + sub + b;
    assert s[|a|..|a| + |sub|] == sub;
    assert OccursAt(s, sub, |a|);
    ContainsIffOccurs(s, sub);
  }

  /** `strings.Join`: the parts in order, with `sep` between neighbours. */
  function Join(parts: seq<string>, sep: string): (r: string)
    ensures |parts| == 1 ==> r == parts[0]
    decreases |parts|
  {
    if |parts| == 0 then ""
    else if |parts| == 1 then parts[0]
    else parts[0] + sep + Join(parts[1..], sep)
  }

  /** Joining two non-empty lists puts one separator between their joins. */
  lemma {:induction false} JoinConcat(a: seq<string>, b: seq<string>, sep: string)
    requires |a| > 0 && |b| > 0
    ensures Join(a + b, sep) == Join(a, sep) + sep + Join(b, sep)
    decreases |a|
  {
    if |a| == 1 {
      assert a + b == [a[0]] + b;
      assert (a + b)[1..] == b;
    } else {
      JoinConcat(a[1..], b, sep);
      assert (a + b)[1..] == a[1..] + b;
    }
  }

  /**
   * `strings.Split` with a one-character separator. The result always has at
   * least one element, no element contains the separator, and joining the
   * elements back with the separator gives the input again.
   */
  function Split(s: string, sep: char): (r: seq<string>)
    ensures |r| >= 1
    ensures forall i :: 0 <= i < |r| ==> sep !in r[i]
    ensures Join(r, [sep]) == s
    decreases |s|
  {
    if |s| == 0 then [""]
    else if s[0] == sep then
      var t := Split(s[1..], sep);
      assert Join([""] + t, [sep]) == "" + [sep] + Join(t, [sep]) by {
        JoinConcat([""], t, [sep]);
      }
      [""] + t
    else
      var t := Split(s[1..], sep);
      var r := [[s[0]] + t[0]] + t[1..];
      assert Join(r, [sep]) == s by {
        if |t| > 1 {
          JoinConcat([t[0]], t[1..], [sep]);
          JoinConcat([[s[0]] + t[0]], t[1..], [sep]);
          assert [t[0]] + t[1..] == t;
        }
      }
      r
  }

  /** A piece free of the separator splits off as the first element. */
  lemma {:induction false} SplitPiece(a: string, sep: char, rest: string)
    requires sep !in a
    ensures Split(a + [sep] + rest, sep) == [a] + Split(rest, sep)
    decreases |a|
  {
    if |a| == 0 {
      assert a + [sep] + rest == [sep] + rest;
      assert ([sep] + rest)[1..] == rest;
    } else {
      SplitPiece(a[1..], sep, rest);
      assert (a + [sep] + rest)[1..] == a[1..] + [sep] + rest;
      assert [a[0]] + a[1..] == a;
    }
  }

  /** A string without the separator splits into itself alone. */
  lemma {:induction false} SplitWhole(a: string, sep: char)
    requires sep !in a
    ensures Split(a, sep) == [a]
    decreases |a|
  {
    if |a| > 0 {
      SplitWhole(a[1..], sep);
      assert [a[0]] + a[1..] == a;
    }
  }

  /** Splitting undoes joining when no part contains the separator. */
  lemma {:induction false} SplitJoin(parts: seq<string>, sep: char)
    requires |parts| > 0
    requires forall i :: 0 <= i < |parts| ==> sep !in parts[i]
    ensures Split(Join(parts, [sep]), sep) == parts
    decreases |parts|
  {
    if |parts| == 1 {
      SplitWhole(parts[0], sep);
    } else {
      SplitJoin(parts[1..], sep);
      SplitPiece(parts[0], sep, Join(parts[1..], [sep]));
      assert [parts[0]] + parts[1..] == parts;
    }
  }

  /**
   * `strings.TrimRight` with a one-character cut set: the longest prefix of
   * `s` that does not end in `c`, everything cut off being `c`.
   */
  function TrimRight(s: string, c: char): (r: string)
    ensures IsPrefix(r, s)
    ensures |r| == 0 || r[|r| - 1] != c
    ensures forall i :: |r| <= i < |s| ==> s[i] == c
    decreases |s|
  {
    if |s| > 0 && s[|s| - 1] == c then TrimRight(s[..|s| - 1], c) else s
  }

  /** The three properties of `TrimRight` determine its result. */
  lemma TrimRightUnique(s: string, c: char, r: string)
    requires IsPrefix(r, s)
    requires |r| == 0 || r[|r| - 1] != c
    requires forall i :: |r| <= i < |s| ==> s[i] == c
    ensures r == TrimRight(s, c)
  {
  }

  /** Trimming twice is trimming once. */
  lemma TrimRightIdempotent(s: string, c: char)
    ensures TrimRight(TrimRight(s, c), c) == TrimRight(s, c)
  {
  }

  /** Any number of trailing cut characters trims to the same string. */
  lemma {:induction false} TrimRightAbsorbs(s: string, c: char, n: nat)
    ensures TrimRight(s + seq(n, _ => c), c) == TrimRight(s, c)
  {
    var t := TrimRight(s, c);
    var s' := s + seq(n, _ => c);
    assert IsPrefix(t, s') by {
      assert s'[..|t|] == s[..|t|];
    }
    TrimRightUnique(s', c, t);
  }

  /**
   * `bytes.ReplaceAll` with a non-empty pattern: every leftmost,
   * non-overlapping occurrence of `pat` is replaced by `rep`, scanning
   * left to right. A string without `pat` comes back unchanged.
   */
  function ReplaceAll(s: string, pat: string, rep: string): (r: string)
    requires |pat| > 0
    ensures !Contains(s, pat) ==> r == s
    ensures |rep| <= |pat| ==> |r| <= |s|
    ensures |rep| >= |pat| ==> |r| >= |s|
    decreases |s|
  {
    if |s| < |pat| then s
    else if IsPrefix(pat, s) then rep + ReplaceAll(s[|pat|..], pat, rep)
    else [s[0]] + ReplaceAll(s[1..], pat, rep)
  }

  /**
   * The leftmost occurrence is the one replaced: when `pat` occurs at `i`
   * and nowhere earlier (the text up to the end of that occurrence, less its
   * last character, does not contain it), the text before it is kept, the
   * occurrence becomes `rep`, and the scan resumes right after it, so
   * occurrences never overlap.
   */
  lemma {:induction false} ReplaceAllFirst(s: string, pat: string, rep: string, i: nat)
    requires |pat| > 0 && i + |pat| <= |s| && s[i..i + |pat|] == pat
    requires !Contains(s[..i + |pat| - 1], pat)
    ensures ReplaceAll(s, pat, rep) == s[..i] + rep + ReplaceAll(s[i + |pat|..], pat, rep)
    decreases i
  {
    if i == 0 {
      assert IsPrefix(pat, s);
    } else {
      var t := s[1..];
      ReplaceAllSkip(s, pat, rep, i);
      DropFirst(s, i, |pat|);
      ReplaceAllFirst(t, pat, rep, i - 1);
      ConsAssoc(s[0], t[..i - 1], rep, ReplaceAll(s[i + |pat|..], pat, rep));
    }
  }

  /** Before the first occurrence, the scan keeps one character and moves on. */
  lemma ReplaceAllSkip(s: string, pat: string, rep: string, i: nat)
    requires |pat| > 0 && 0 < i && i + |pat| <= |s|
    requires !Contains(s[..i + |pat| - 1], pat)
    ensures ReplaceAll(s, pat, rep) == [s[0]] + ReplaceAll(s[1..], pat, rep)
  {
    var x := s[..i + |pat| - 1];
    assert x[..|pat|] == s[..|pat|];
    assert IsPrefix(pat, x) == IsPrefix(pat, s);
  }

  /**
   * Dropping the first character: the occurrence moves to `i - 1`, the text
   * before it still does not contain the pattern, and the slices line up.
   */
  lemma DropFirst(s: string, i: nat, n: nat)
    requires 0 < i && 0 < n && i + n <= |s|
    ensures s[1..][i - 1..i - 1 + n] == s[i..i + n]
    ensures s[1..][..i - 1 + n - 1] == s[..i + n - 1][1..]
    ensures s[1..][i - 1 + n..] == s[i + n..]
    ensures [s[0]] + s[1..][..i - 1] == s[..i]
  {
  }

  lemma ConsAssoc(c: char, u: string, rep: string, x: string)
    ensures [c] + (u + rep + x) == ([c] + u) + rep + x
  {
  }

  /**
   * With a one-character pattern, replacing is splitting on the character
   * and joining the pieces back with the replacement.
   */
  lemma {:induction false} ReplaceCharIsJoinSplit(s: string, c: char, rep: string)
    ensures ReplaceAll(s, [c], rep) == Join(Split(s, c), rep)
    decreases |s|
  {
    if |s| > 0 {
      ReplaceCharIsJoinSplit(s[1..], c, rep);
      var t := Split(s[1..], c);
      if s[0] == c {
        assert IsPrefix([c], s);
        JoinConcat([""], t, rep);
        assert [""] + t == Split(s, c);
      } else {
        assert !IsPrefix([c], s);
        JoinFirstGrows(s[0], t, rep);
      }
    }
  }

  /** Putting a character in front of the first part puts it in front of the join. */
  lemma JoinFirstGrows(x: char, t: seq<string>, sep: string)
    requires |t| > 0
    ensures Join([[x] + t[0]] + t[1..], sep) == [x] + Join(t, sep)
  {
    var u := [[x] + t[0]] + t[1..];
    assert u[1..] == t[1..];
  }
}

=== FILE: wrappers.dfy ===
/** Small failure-carrying datatypes shared by the other modules. */
module Wrappers {

  /** A value that may be absent: Go's nil pointer or nil error. */
  datatype Option<+T> = None | Some(value: T)

  /** The outcome of an operation that either yields a value or fails with an error. */
  datatype Result<+T, +E> = Ok(value: T) | Err(error: E)
}
